=== FILE: README.md ===
# In-memory user service: store and route table

A model of the Go web service in `RESTfulAPI/myapp/app.go`. The service keeps
users in a process-wide map keyed by id. A counter `lastID` hands out ids. A
gorilla/mux router sends each request to one of four handlers:

- the index greeting;
- a fixed hint on `GET /users`;
- user creation on `POST /users`;
- get-by-id on `/users/{id:[0-9]+}`, for any method.

Here the global map and counter are one immutable `Store.State` value. Each
handler is a pure function from the state and the request's inputs to a
response and, for create, the next state. The route table is
`Router.Match`. `App.Serve` handles one request. `App.Run` folds a session of
requests over the state.

Modules, in dependency order:

- `Wrappers`: `Option` and `Result`.
- `Decimal`: digit strings (the `[0-9]+` route pattern), the value they
  denote, and the decimal text fmt prints for an int.
- `Strconv`: Go's 64-bit `int` (`Int64`, `Inc` with wrap-around) and
  `strconv.Atoi` with its `NumError` text.
- `Store`: `User`, the state, the reset done by the handler factory, lookup,
  create, and the store invariant `Valid`. `Valid` says the keys are exactly
  `1..lastID` and each user's `id` equals its key.
- `Handlers`: the four handlers. A response is a status and the ordered body
  writes. A write is text or the JSON encoding of a user pointer.
- `Router`: the route table.
- `App`: dispatch, sessions, and the end-to-end properties.

Inputs the service takes from outside become parameters:

- JSON decoding of the create body becomes a `Result<User, string>`. A
  decoded user, or the decoder's error text.
- `time.Now()` becomes a `Timestamp` argument.
- The JSON encoding of a user appears only as a `Json` body write.
  `Handlers.Render` takes the encoder as a function parameter. It renders the
  nil pointer as `null`.

Where the code and its tests disagree, the model follows the code:

- The tests expect a list answer (`RESTfulAPI/myapp/app_test.go:40`),
  update and delete (`RESTfulAPI/myapp/app_test.go:88-159`). The code has none.
  `GET /users` returns the fixed text `Get UserInfo by /users/{id}`. There is
  no PUT or DELETE route. `DELETE /users/1` reaches get-by-id (see
  `Router.ReachesUserInfo`).
- A missing id gets `No User Id : <id>`, after which the handler falls
  through, so the body also gets the encoding of the nil user, `null`. All
  with status 200. The test at `RESTfulAPI/myapp/app_test.go:54` only checks
  that the body contains the first part.
- The 400 branch of get-by-id converts non-integer text, but the route admits
  only digit runs, so it is reached only when the digits overflow an `int`
  (`App.BadRequestOnlyOnOverflow`).

Go's `int` is taken to be 64 bits wide. `lastID++` wraps from `MaxInt` to
`MinInt`. `Strconv.Inc` models that wrap and `Store.CreateAtMaxIntWraps`
shows its effect: the invariant fails once the counter is exhausted. So the
invariant lemmas assume the counter still has room.

## Model

| member | source | states |
|---|---|---|
| Decimal.Format | RESTfulAPI/myapp/app.go:45 | the printed form of a number is a digit run with no redundant leading zero; it starts with '0' only for zero and is one digit long exactly below ten |
| Decimal.ValueOfFormat | RESTfulAPI/myapp/app_test.go:75 | reading back the decimal text of a number gives the number |
| Decimal.FormatOfValue | RESTfulAPI/myapp/app.go:35 | printing the value of a canonical digit run gives the same run back |
| Decimal.FormatValueRoundTrip | RESTfulAPI/myapp/app.go:35-45 | a digit run survives parse-then-print exactly when it has no redundant leading zero, so `/users/089` is reported as id 89 |
| Decimal.LeadingDigitBound | RESTfulAPI/myapp/app.go:35 | a digit run not starting with '0' denotes a positive number, and at least ten when it has two or more digits |
| Strconv.Inc | RESTfulAPI/myapp/app.go:64 | the increment is the successor modulo 2^64 in two's complement: one more below MaxInt, MinInt after MaxInt |
| Decimal.FormatInt | RESTfulAPI/myapp/app.go:45 | the printed text of a non-negative int is a canonical digit run denoting it; of a negative one, a minus sign and a canonical run denoting its magnitude |
| Strconv.ErrorText | RESTfulAPI/myapp/app.go:38 | the error text starts with `strconv.`, the function name and `: parsing`, then the input between double quotes, then `: `, and ends with the cause |
| Strconv.Atoi | RESTfulAPI/myapp/app.go:35-39 | conversion succeeds exactly on a digit run whose value fits in an int, yielding that non-negative value; a failure names Atoi and the input, and is a range error exactly when the input was a digit run |
| Strconv.AtoiOfFormat | RESTfulAPI/myapp/app_test.go:74-75 | converting the decimal text of a non-negative int gives that int back |
| Store.Initial | RESTfulAPI/myapp/app.go:78-79 | the reset store is empty and satisfies the store invariant |
| Store.Lookup | RESTfulAPI/myapp/app.go:42 | lookup finds a user exactly when the id is a key, and then it is the stored entry itself; on a valid store it finds one exactly when the id is in 1..lastID, and that user carries the id |
| Store.ValidSize | RESTfulAPI/myapp/app.go:22-23 | a valid store holds exactly lastID users |
| Store.Create | RESTfulAPI/myapp/app.go:64-67 | the stored user keeps the client's names and email, gets the clock reading and the next id, the counter becomes that id, the user is filed under it, every other entry is kept and the key set grows by exactly that id |
| Store.CreateIgnoresClientId | RESTfulAPI/myapp/app.go:65-66 | whatever id and creation time the client sent, create stores and returns the same thing |
| Store.CreateKeepsValid | RESTfulAPI/myapp/app.go:64-67 | on a valid store with room in the counter the new id is absent and larger than every stored id, the store grows by one and stays valid |
| Store.CreateAtMaxIntWraps | RESTfulAPI/myapp/app.go:64 | at counter MaxInt the new user gets id MinInt and the store invariant is lost |
| Handlers.Index | RESTfulAPI/myapp/app.go:25-27 | index answers 200 with text writes only, reading `Hello World!` whatever the user encoding |
| Handlers.UsersHandler | RESTfulAPI/myapp/app.go:29-31 | the users stub answers 200 with text writes only, reading `Get UserInfo by /users/{id}` whatever the user encoding |
| Handlers.GetUserInfo | RESTfulAPI/myapp/app.go:33-53 | 400 with the conversion error exactly when the id text does not convert, else 200; a stored id yields that user's encoding, a missing one the not-found text with the converted id followed by the nil user |
| Handlers.CreateUser | RESTfulAPI/myapp/app.go:55-74 | a decode failure gives 400 with the error text and the same store; a decoded body gives 201 echoing exactly the user Store.Create files, with the store Store.Create leaves (next id, decoded names and email, the clock reading, every old user kept), and the store changes |
| Handlers.RenderConcat | RESTfulAPI/myapp/app.go:45-51 | for every user encoding, the body text of successive runs of writes is the first run's text followed by the second's |
| Handlers.NotFoundBody | RESTfulAPI/myapp/app.go:42-51 | for a missing id the body text is `No User Id : `, the decimal id and `null`, whatever the user encoding |
| Router.Match | RESTfulAPI/myapp/app.go:82-85 | `/` is the index route for every method; `/users` reaches the stub exactly for GET and create exactly for POST; a get-info route's path is `/users/` followed by its digit-run variable |
| Router.ReachesUserInfo | RESTfulAPI/myapp/app.go:85 | `/users/` plus some text reaches get-info, for any method, exactly when the text is one or more ASCII digits |
| Router.UsersMethods | RESTfulAPI/myapp/app.go:83-84 | `/users` is routed only for GET and POST |
| App.Serve | RESTfulAPI/myapp/app.go:80-86 | a request gets a response exactly when some route matches; `/` is answered by index, GET `/users` by the stub and a get-info route by get-info on its id text, all leaving the store alone; POST `/users` is answered and the store replaced by create; an unrouted request leaves the store alone |
| App.Run | RESTfulAPI/myapp/app.go:78-85 | a session with no POST to `/users` whose body decodes leaves the store as it was |
| App.RunCountsCreates | RESTfulAPI/myapp/app.go:64-67 | on a valid store with room in the counter, a session raises the counter by exactly the number of its POSTs to `/users` whose body decodes |
| App.SessionCountsCreates | RESTfulAPI/myapp/app.go:64-79 | after a session served from a freshly built handler, the counter and the number of stored users both equal the number of successful creates |
| App.RunKeepsUsers | RESTfulAPI/myapp/app.go:64-67 | on a valid store with room in the counter, no request of a session overwrites or drops a stored user: every earlier entry is still present and unchanged afterwards |
| App.GetAfterSession | RESTfulAPI/myapp/app.go:42-67 | a user created on a valid store can be fetched by `/users/<id>` with any method after any later session that fits in the counter, answering 200 with the user as created |
| App.ServeReadOnly | RESTfulAPI/myapp/app.go:25-74 | the store changes exactly for a POST to `/users` whose body decodes; index, stub, get-info, failed creates and unrouted requests leave it as it was |
| App.ServeKeepsValid | RESTfulAPI/myapp/app.go:64-79 | serving any request on a valid store with room in the counter keeps it valid and raises the counter by at most one |
| App.RunKeepsValid | RESTfulAPI/myapp/app.go:64-79 | a session keeps the store valid, and the counter never decreases and grows at most by the session's length |
| App.SessionKeepsValid | RESTfulAPI/myapp/app.go:78-85 | every session served from a freshly built handler leaves a valid store |
| App.FirstCreateGetsIdOne | RESTfulAPI/myapp/app.go:64-79 | the first create after the handler is built answers 201 with a user whose id is 1 |
| App.CreateThenGet | RESTfulAPI/myapp/app_test.go:58-85 | a create answers 201 with the stored user, whose id is the old counter plus one and whose names, email and clock reading come from the request; fetching `/users/<that id>` with any method then answers 200 with the same user and leaves the store unchanged |
| App.MissingUser | RESTfulAPI/myapp/app_test.go:44-55 | get-info on a digit run that fits in an int but is not stored answers 200 with `No User Id : `, the value without leading zeros, and `null`, leaving the store unchanged |
| App.BadRequestOnlyOnOverflow | RESTfulAPI/myapp/app.go:35-39 | a request routed to get-info gets 400 exactly when its digits exceed the int range, and the body is then the Atoi range error text |

## Left out

- HTTP transport and mux internals are not modelled: response headers (including the `Content-Type` header that the not-found branch adds only after writing the body), the ignored second `WriteHeader`, path cleaning and redirects, and mux's own 404/405 answers. An unmatched request is just `None`.
- JSON encoding and decoding are external. Decoding is an input; encoding is the `Json` body write, rendered by a caller-supplied encoder.
- `time.Now()` is external. It is the `now` argument.
- `RESTfulAPI/main.go` only starts the listener on port 3000. It is not part of this model.
- The global map is shared by concurrent requests without synchronisation. The model serves requests one at a time.
- `userMap` and `lastID` are package globals (`RESTfulAPI/myapp/app.go:22-23`). Every handler built by `NewHandler` shares them, and building another one wipes the store of those already built. The model gives each session its own state value and does not model that sharing.
- Strconv.Atoi: covers unsigned decimal text, the only input the route delivers. It does not model a leading sign. It reports ErrSyntax for any other text. It does not model Go's ordering between range and syntax errors in mixed text.
- Strconv.ErrorText: quotes the input by wrapping it in double quotes. That equals `strconv.Quote` for printable ASCII text without quotes or backslashes, digit runs included.
- Store.CreateKeepsValid: requires the counter to be below MaxInt, because after the wrap the invariant fails (Store.CreateAtMaxIntWraps).
- App.ServeKeepsValid: requires the counter to be below MaxInt, for the same reason.
- App.RunKeepsValid: requires the session to be no longer than the ids the counter has left, for the same reason.
- App.SessionKeepsValid: requires at most MaxInt requests, for the same reason.
- App.RunCountsCreates: requires the session to be no longer than the ids the counter has left, for the same reason.
- App.SessionCountsCreates: requires at most MaxInt requests, for the same reason.
- App.RunKeepsUsers: requires the session to be no longer than the ids the counter has left, for the same reason.
- App.GetAfterSession: requires the create and the later session to fit in the ids the counter has left, for the same reason.
- List, update and delete are not modelled. The tests at `RESTfulAPI/myapp/app_test.go:40` and `RESTfulAPI/myapp/app_test.go:88-159` expect them, but `app.go` does not implement them.

=== FILE: app.dfy ===
/** The whole service: a request is dispatched through the route table to
    one handler, which runs against the store; a session is a sequence of
    requests served one after another from a freshly built handler. */
module App {
  import opened Wrappers
  import opened Decimal
  import opened Strconv
  import opened Store
  import opened Handlers
  import opened Router

  /** A request as the handlers see it: method, path, and the outcome of
      decoding its body as a user (consulted only by create). */
  datatype Request = Request(verb: string, path: string, body: Result<User, string>)

  /** One request together with the clock reading taken while serving it. */
  datatype Step = Step(req: Request, now: Timestamp)

  /** The one kind of request that writes to the store: a POST to `/users`
      whose body decodes. */
  predicate Mutates(req: Request) {
    req.verb == "POST" && req.path == Users && req.body.Success?
  }

  /** Serve one request by the handler its route names. None means no route
      matched (the router's own not-found and method-not-allowed answers are
      not modelled). */
  function Serve(s: State, req: Request, now: Timestamp): (r: (Option<Response>, State))
    ensures r.0.None? <==> Match(req.verb, req.path) == NoRoute
    ensures Match(req.verb, req.path) == NoRoute ==> r.1 == s
    ensures Match(req.verb, req.path) == IndexRoute ==> r == (Some(Index()), s)
    ensures Match(req.verb, req.path) == UsersRoute ==> r == (Some(UsersHandler()), s)
    ensures Match(req.verb, req.path) == CreateRoute ==>
      r == (Some(CreateUser(s, req.body, now).0), CreateUser(s, req.body, now).1)
    ensures Match(req.verb, req.path).UserInfoRoute? ==>
      r == (Some(GetUserInfo(s, Match(req.verb, req.path).id)), s)
  {
    match Match(req.verb, req.path)
    case IndexRoute => (Some(Index()), s)
    case UsersRoute => (Some(UsersHandler()), s)
    case CreateRoute =>
      var (resp, s') := CreateUser(s, req.body, now);
      (Some(resp), s')
    case UserInfoRoute(id) => (Some(GetUserInfo(s, id)), s)
    case NoRoute => (None, s)
  }

  /** The store after one handler has served a session's requests in
      order. A session none of whose requests writes leaves the store as it
      was. */
  function Run(s: State, steps: seq<Step>): (r: State)
    ensures (forall i :: 0 <= i < |steps| ==> !Mutates(steps[i].req)) ==> r == s
    decreases |steps|
  {
    if |steps| == 0 then s
    else
      ServeReadOnly(s, steps[0].req, steps[0].now);
      Run(Serve(s, steps[0].req, steps[0].now).1, steps[1..])
  }

  /** The number of requests in a session that write to the store. */
  function Creates(steps: seq<Step>): nat
    decreases |steps|
  {
    if |steps| == 0 then 0 else (if Mutates(steps[0].req) then 1 else 0) + Creates(steps[1..])
  }

  /** Only a POST to `/users` whose body decodes changes the store; every
      other request (index, the users hint, get-info, a bad create body, no
      route) leaves it exactly as it was. */
  lemma ServeReadOnly(s: State, req: Request, now: Timestamp)
    ensures Serve(s, req, now).1 != s <==> Mutates(req)
  {
  }

  /** Serving any request keeps the store invariant, as long as the counter
      has room for one more id. */
  lemma ServeKeepsValid(s: State, req: Request, now: Timestamp)
    requires Valid(s) && s.lastID < MaxInt
    ensures Valid(Serve(s, req, now).1)
    ensures Serve(s, req, now).1.lastID <= s.lastID + 1
  {
    if Match(req.verb, req.path) == CreateRoute && req.body.Success? {
      CreateKeepsValid(s, req.body.value, now);
    }
  }

  /** A session keeps the store invariant while it holds fewer requests than
      the ids the counter has left. */
  lemma {:induction false} RunKeepsValid(s: State, steps: seq<Step>)
    requires Valid(s) && s.lastID + |steps| <= MaxInt
    ensures Valid(Run(s, steps))
    ensures s.lastID <= Run(s, steps).lastID <= s.lastID + |steps|
    decreases |steps|
  {
    if |steps| > 0 {
      var s' := Serve(s, steps[0].req, steps[0].now).1;
      ServeKeepsValid(s, steps[0].req, steps[0].now);
      assert s.lastID <= s'.lastID by {
        if s' != s {
          ServeReadOnly(s, steps[0].req, steps[0].now);
        }
      }
      RunKeepsValid(s', steps[1..]);
    }
  }

  /** Every successful create in a session takes effect: on a valid store
      with room in the counter, the counter ends up raised by exactly the
      number of requests that write. */
  lemma {:induction false} RunCountsCreates(s: State, steps: seq<Step>)
    requires Valid(s) && s.lastID + |steps| <= MaxInt
    ensures Run(s, steps).lastID == s.lastID + Creates(steps)
    decreases |steps|
  {
    if |steps| > 0 {
      var req, now := steps[0].req, steps[0].now;
      var s' := Serve(s, req, now).1;
      ServeKeepsValid(s, req, now);
      ServeReadOnly(s, req, now);
      if Mutates(req) {
        CreateKeepsValid(s, req.body.value, now);
        assert s'.lastID == s.lastID + 1;
      }
      RunCountsCreates(s', steps[1..]);
    }
  }

  /** No request of a session overwrites or drops a user already stored:
      every earlier entry is still there, unchanged, after the session. */
  lemma {:induction false} RunKeepsUsers(s: State, steps: seq<Step>)
    requires Valid(s) && s.lastID + |steps| <= MaxInt
    ensures forall k :: k in s.users ==> k in Run(s, steps).users && Run(s, steps).users[k] == s.users[k]
    decreases |steps|
  {
    if |steps| > 0 {
      var req, now := steps[0].req, steps[0].now;
      var s' := Serve(s, req, now).1;
      ServeKeepsValid(s, req, now);
      ServeReadOnly(s, req, now);
      if Mutates(req) {
        CreateKeepsValid(s, req.body.value, now);
      }
      assert forall k :: k in s.users ==> k in s'.users && s'.users[k] == s.users[k];
      RunKeepsUsers(s', steps[1..]);
    }
  }

  /** A created user can still be fetched, unchanged, after any later
      session: `/users/<id>` with any method answers 200 with that user. */
  lemma GetAfterSession(s: State, fields: User, now: Timestamp, later: seq<Step>, verb: string, body: Result<User, string>, t: Timestamp)
    requires Valid(s) && s.lastID + 1 + |later| <= MaxInt
    ensures
      var s1 := Serve(s, Request("POST", Users, Success(fields)), now).1;
      var id := s.lastID + 1;
      && id in s1.users
      && Serve(Run(s1, later), Request(verb, UsersSlash + FormatInt(id), body), t).0
           == Some(Response(StatusOK, [Json(Some(s1.users[id]))]))
  {
    var s1 := Serve(s, Request("POST", Users, Success(fields)), now).1;
    var id := s.lastID + 1;
    CreateKeepsValid(s, fields, now);
    RunKeepsUsers(s1, later);
    ReachesUserInfo(verb, FormatInt(id));
    AtoiOfFormat(id);
  }

  /** From a freshly built handler, the counter after a session is the
      number of successful creates in it, and the store holds that many users. */
  lemma SessionCountsCreates(steps: seq<Step>)
    requires |steps| <= MaxInt
    ensures Run(Initial(), steps).lastID == Creates(steps)
    ensures |Run(Initial(), steps).users| == Creates(steps)
  {
    RunCountsCreates(Initial(), steps);
    RunKeepsValid(Initial(), steps);
    ValidSize(Run(Initial(), steps));
  }

  /** Every session served from a fresh handler keeps ids 1..lastID, each
      user under its own id. */
  lemma SessionKeepsValid(steps: seq<Step>)
    requires |steps| <= MaxInt
    ensures Valid(Run(Initial(), steps))
  {
    RunKeepsValid(Initial(), steps);
  }

  /** The first create on a fresh handler is answered 201 with id 1. */
  lemma FirstCreateGetsIdOne(fields: User, now: Timestamp)
    ensures var (resp, s') := Serve(Initial(), Request("POST", Users, Success(fields)), now);
      && s'.lastID == 1
      && resp == Some(Response(StatusCreated, [Json(Some(s'.users[1]))]))
      && s'.users[1].id == 1
  {
  }

  /** A create is answered 201 with the stored user: it carries the next id
      (never the client's), the client's names and email, and the clock
      reading; fetching `/users/<that id>` with any method then answers 200
      with the same user and changes nothing. */
  lemma CreateThenGet(s: State, fields: User, now: Timestamp, verb: string, body: Result<User, string>, later: Timestamp)
    requires Valid(s) && s.lastID < MaxInt
    ensures
      var (created, s1) := Serve(s, Request("POST", Users, Success(fields)), now);
      var id := s.lastID + 1;
      && s1.lastID == id
      && id in s1.users
      && var u := s1.users[id];
      && created == Some(Response(StatusCreated, [Json(Some(u))]))
      && u.id == id
      && u.firstName == fields.firstName
      && u.lastName == fields.lastName
      && u.email == fields.email
      && u.createdAt == now
      && Serve(s1, Request(verb, UsersSlash + FormatInt(id), body), later) == (Some(Response(StatusOK, [Json(Some(u))])), s1)
  {
    var s1 := Serve(s, Request("POST", Users, Success(fields)), now).1;
    var id := s.lastID + 1;
    var text := FormatInt(id);
    assert text == Format(id);
    ReachesUserInfo(verb, text);
    AtoiOfFormat(id);
  }

  /** Get-info on a digit run whose value is not stored answers 200 with the
      not-found text naming the value (leading zeros dropped) followed by
      `null`, and leaves the store alone. */
  lemma MissingUser(s: State, verb: string, digits: string, body: Result<User, string>, now: Timestamp, encode: User -> string)
    requires IsDigitRun(digits) && Value(digits) <= MaxInt && Value(digits) !in s.users
    ensures var (resp, s') := Serve(s, Request(verb, UsersSlash + digits, body), now);
      && s' == s
      && resp.Some?
      && resp.value.status == StatusOK
      && Render(resp.value.body, encode) == NotFoundPrefix + Format(Value(digits)) + "null"
  {
    ReachesUserInfo(verb, digits);
    NotFoundBody(s, digits, encode);
  }

  /** A request reaching get-info is answered 400 exactly when its digit run
      denotes a number too large for an int, and the body then names the
      range error. */
  lemma BadRequestOnlyOnOverflow(s: State, req: Request, now: Timestamp)
    requires Match(req.verb, req.path).UserInfoRoute?
    ensures var digits := Match(req.verb, req.path).id;
      var resp := Serve(s, req, now).0.value;
      && (resp.status == StatusBadRequest <==> Value(digits) > MaxInt)
      && (resp.status == StatusBadRequest ==>
            resp.body == [Text(ErrorText(NumError("Atoi", digits, ErrRange)))])
  {
  }
}

=== FILE: decimal.dfy ===
/** Decimal digit strings: the language of the route pattern `[0-9]+`, the
    number such a string denotes, and the base-10 text fmt prints for an int. */
module Decimal {

  predicate IsDigit(c: char) {
    '0' <= c <= '9'
  }

  /** Every character is an ASCII digit (the empty string included). */
  predicate AllDigits(s: string) {
    forall i :: 0 <= i < |s| ==> IsDigit(s[i])
  }

  /** The strings the regular expression `[0-9]+` matches in full. */
  predicate IsDigitRun(s: string) {
    |s| > 0 && AllDigits(s)
  }

  /** A digit run without redundant leading zeros: what printing a natural number gives. */
  predicate IsCanonical(s: string) {
    IsDigitRun(s) && (s[0] == '0' ==> |s| == 1)
  }

  function DigitValue(c: char): (d: nat)
    requires IsDigit(c)
    ensures d < 10
  {
    c as int - '0' as int
  }

  function DigitChar(d: nat): (c: char)
    requires d < 10
    ensures IsDigit(c) && DigitValue(c) == d
  {
    ('0' as int + d) as char
  }

  /** The number a digit string denotes in base 10; leading zeros are allowed. */
  function Value(s: string): nat
    requires AllDigits(s)
  {
    if |s| == 0 then 0 else 10 * Value(s[..|s| - 1]) + DigitValue(s[|s| - 1])
  }

  /** Base-10 text of a natural number, most significant digit first. */
  function Format(n: nat): (s: string)
    ensures IsCanonical(s)
    ensures s[0] == '0' <==> n == 0
    ensures |s| == 1 <==> n < 10
  {
    if n < 10 then [DigitChar(n)] else Format(n / 10) + [DigitChar(n % 10)]
  }

  /** How fmt prints a Go int with the default verb: a minus sign, then the magnitude. */
  function FormatInt(i: int): (s: string)
    ensures i >= 0 ==> IsCanonical(s) && Value(s) == i
    ensures i < 0 ==> |s| > 1 && s[0] == '-' && IsCanonical(s[1..]) && Value(s[1..]) == -i
  {
    if i < 0 then
      ValueOfFormat(-i);
      assert ("-" + Format(-i))[1..] == Format(-i);
      "-" + Format(-i)
    else
      ValueOfFormat(i);
      Format(i)
  }

  /** Reading back the printed text of a number gives the number. */
  lemma {:induction false} ValueOfFormat(n: nat)
    ensures Value(Format(n)) == n
  {
    var s := Format(n);
    if n < 10 {
      assert s[..|s| - 1] == [];
    } else {
      assert s[..|s| - 1] == Format(n / 10);
      ValueOfFormat(n / 10);
    }
  }

  /** A digit run that does not start with '0' denotes a positive number,
      and one of two or more digits denotes at least ten. */
  lemma {:induction false} LeadingDigitBound(s: string)
    requires IsDigitRun(s) && s[0] != '0'
    ensures Value(s) > 0
    ensures |s| > 1 ==> Value(s) >= 10
  {
    var p := s[..|s| - 1];
    if |s| == 1 {
      assert p == [];
    } else {
      assert p[0] == s[0];
      LeadingDigitBound(p);
    }
  }

  /** Printing the number a canonical digit run denotes gives the run back. */
  lemma {:induction false} FormatOfValue(s: string)
    requires IsCanonical(s)
    ensures Format(Value(s)) == s
  {
    var p := s[..|s| - 1];
    var d := DigitValue(s[|s| - 1]);
    assert DigitChar(d) == s[|s| - 1];
    if |s| == 1 {
      assert p == [];
      assert Value(s) == d;
    } else {
      assert p[0] == s[0];
      LeadingDigitBound(s);
      assert Value(s) == 10 * Value(p) + d;
      assert Value(s) / 10 == Value(p) && Value(s) % 10 == d;
      FormatOfValue(p);
      assert s == p + [s[|s| - 1]];
    }
  }

  /** A digit run survives a parse-then-print round trip exactly when it has
      no redundant leading zero: "089" reads as 89, which prints as "89". */
  lemma FormatValueRoundTrip(s: string)
    requires IsDigitRun(s)
    ensures Format(Value(s)) == s <==> IsCanonical(s)
  {
    if IsCanonical(s) {
      FormatOfValue(s);
    }
  }
}

=== FILE: handlers.dfy ===
/** The four request handlers, each a pure function of the store and the
    request's inputs. A response is its status and the ordered writes made to
    the body; a write is plain text or the JSON encoding of a user pointer. */
module Handlers {
  import opened Wrappers
  import opened Decimal
  import opened Strconv
  import opened Store

  const StatusOK := 200
  const StatusCreated := 201
  const StatusBadRequest := 400

  const Greeting := "Hello World!"
  const UsersHint := "Get UserInfo by /users/{id}"
  const NotFoundPrefix := "No User Id : "

  /** One write to the response body: text, or `json.Marshal` of a `*User`
      (None is the nil pointer). */
  datatype Chunk = Text(text: string) | Json(user: Option<User>)

  /** The status the client sees (the first one written, 200 when none is)
      and the body writes in order. */
  datatype Response = Response(status: int, body: seq<Chunk>)

  /** The text one write puts on the wire, given the JSON encoding of a
      user; a nil user pointer encodes as `null`. */
  function RenderChunk(c: Chunk, encode: User -> string): string {
    match c
    case Text(t) => t
    case Json(None) => "null"
    case Json(Some(u)) => encode(u)
  }

  /** The body text: the writes' texts one after another. */
  function Render(body: seq<Chunk>, encode: User -> string): string {
    if |body| == 0 then "" else RenderChunk(body[0], encode) + Render(body[1..], encode)
  }

  /** The text of a body made of two runs of writes is the first run's text
      followed by the second's. */
  lemma {:induction false} RenderConcat(a: seq<Chunk>, b: seq<Chunk>, encode: User -> string)
    ensures Render(a + b, encode) == Render(a, encode) + Render(b, encode)
    decreases |a|
  {
    if |a| > 0 {
      assert (a + b)[1..] == a[1..] + b;
      RenderConcat(a[1..], b, encode);
    } else {
      assert a + b == b;
    }
  }

  /** `/`: a fixed greeting with the implicit 200. */
  function Index(): (r: Response)
    ensures r.status == StatusOK
    ensures forall c :: c in r.body ==> c.Text?
    ensures forall encode: User -> string :: Render(r.body, encode) == Greeting
  {
    Response(StatusOK, [Text(Greeting)])
  }

  /** GET `/users`: a fixed hint pointing at the per-id route; it lists nothing. */
  function UsersHandler(): (r: Response)
    ensures r.status == StatusOK
    ensures forall c :: c in r.body ==> c.Text?
    ensures forall encode: User -> string :: Render(r.body, encode) == UsersHint
  {
    Response(StatusOK, [Text(UsersHint)])
  }

  /** Get-by-id on the text of the route's id variable. Text that does not
      convert to an int gives 400 and the conversion error. A stored id gives
      200 and that user. A missing id gives 200, the not-found text with the
      converted id, and then, since that branch does not return, the encoding
      of the nil user. */
  function GetUserInfo(s: State, idText: string): (r: Response)
    ensures r.status == StatusBadRequest <==> Atoi(idText).Failure?
    ensures r.status != StatusBadRequest ==> r.status == StatusOK
    ensures Atoi(idText).Failure? ==> r.body == [Text(ErrorText(Atoi(idText).error))]
    ensures Atoi(idText).Success? ==>
      var id := Atoi(idText).value;
      if id in s.users then r.body == [Json(Some(s.users[id]))]
      else r.body == [Text(NotFoundPrefix + FormatInt(id)), Json(None)]
  {
    match Atoi(idText)
    case Failure(e) => Response(StatusBadRequest, [Text(ErrorText(e))])
    case Success(id) =>
      var found := Lookup(s, id);
      var prefix := if found.None? then [Text(NotFoundPrefix + FormatInt(id))] else [];
      Response(StatusOK, prefix + [Json(found)])
  }

  /** POST `/users` on the outcome of decoding the body. A decoding error
      gives 400 and its text and leaves the store alone; otherwise the user is
      created and echoed back with 201. */
  function CreateUser(s: State, decoded: Result<User, string>, now: Timestamp): (r: (Response, State))
    ensures decoded.Failure? ==> r.0 == Response(StatusBadRequest, [Text(decoded.error)]) && r.1 == s
    ensures decoded.Success? ==>
      && r.0.status == StatusCreated
      && r.1.lastID in r.1.users
      && r.0.body == [Json(Some(r.1.users[r.1.lastID]))]
      && r.1 != s
    ensures decoded.Success? ==>
      var (user, s') := Create(s, decoded.value, now);
      r == (Response(StatusCreated, [Json(Some(user))]), s')
  {
    match decoded
    case Failure(e) => (Response(StatusBadRequest, [Text(e)]), s)
    case Success(fields) =>
      var (user, s') := Create(s, fields, now);
      (Response(StatusCreated, [Json(Some(user))]), s')
  }

  /** The not-found body reads as the prefix, the decimal id and `null`, for
      every encoding of users. */
  lemma NotFoundBody(s: State, idText: string, encode: User -> string)
    requires Atoi(idText).Success? && Atoi(idText).value !in s.users
    ensures Render(GetUserInfo(s, idText).body, encode) == NotFoundPrefix + FormatInt(Atoi(idText).value) + "null"
  {
    var text := NotFoundPrefix + FormatInt(Atoi(idText).value);
    RenderConcat([Text(text)], [Json(None)], encode);
    assert [Text(text)][1..] == [] && [Json(None)][1..] == [];
  }
}

=== FILE: router.dfy ===
/** The route table the handler factory registers, as a function from the
    request method and the (already cleaned) request path to the one route
    that serves it. */
module Router {
  import opened Decimal

  /** Which handler a request reaches; UserInfo carries the text of the
      `{id}` path variable. */
  datatype Route = IndexRoute | UsersRoute | CreateRoute | UserInfoRoute(id: string) | NoRoute

  const Root := "/"
  const Users := "/users"
  const UsersSlash := "/users/"

  /** Routes are tried in registration order: `/` for any method, `/users`
      for GET, `/users` for POST, then `/users/{id:[0-9]+}` for any method. */
  function Match(verb: string, path: string): (r: Route)
    ensures r == IndexRoute <==> path == Root
    ensures r == UsersRoute <==> path == Users && verb == "GET"
    ensures r == CreateRoute <==> path == Users && verb == "POST"
    ensures r.UserInfoRoute? ==> path == UsersSlash + r.id && IsDigitRun(r.id)
  {
    if path == Root then IndexRoute
    else if path == Users then
      if verb == "GET" then UsersRoute
      else if verb == "POST" then CreateRoute
      else NoRoute
    else if |path| > |UsersSlash| && path[..|UsersSlash|] == UsersSlash && AllDigits(path[|UsersSlash|..]) then
      UserInfoRoute(path[|UsersSlash|..])
    else NoRoute
  }

  /** `/users/` followed by some text reaches get-info, whatever the method,
      exactly when that text is one or more ASCII digits, and the route
      variable is then that text. */
  lemma ReachesUserInfo(verb: string, tail: string)
    ensures Match(verb, UsersSlash + tail) == UserInfoRoute(tail) <==> IsDigitRun(tail)
    ensures !IsDigitRun(tail) ==> !Match(verb, UsersSlash + tail).UserInfoRoute?
  {
    var path := UsersSlash + tail;
    assert path[..|UsersSlash|] == UsersSlash;
    assert path[|UsersSlash|..] == tail;
    assert path != Root && path != Users by {
      assert |path| >= |UsersSlash| > |Users| > |Root|;
    }
  }

  /** `/users` is served only for GET and POST. */
  lemma UsersMethods(verb: string)
    ensures Match(verb, Users) != NoRoute <==> verb == "GET" || verb == "POST"
  {
  }
}

=== FILE: store.dfy ===
/** The process-wide user store of the service: the map from id to user and
    the counter of the last id handed out, as one immutable value. */
module Store {
  import opened Wrappers
  import opened Strconv

  /** A `time.Time`; only its identity matters here, so it is an opaque stamp. */
  datatype Timestamp = Timestamp(nanos: int)

  /** The single resource kind, with the fields its JSON form carries. */
  datatype User = User(
    id: Int64,
    firstName: string,
    lastName: string,
    email: string,
    createdAt: Timestamp)

  /** `userMap` together with `lastID`. */
  datatype State = State(users: map<Int64, User>, lastID: Int64)

  /** The store invariant: exactly the ids 1..lastID are present, and each
      stored user carries the id it is stored under. */
  ghost predicate Valid(s: State) {
    && 0 <= s.lastID
    && (forall k :: k in s.users <==> 1 <= k <= s.lastID)
    && forall k :: k in s.users ==> s.users[k].id == k
  }

  /** The ids 1 through n, built one at a time. */
  ghost function IdsUpTo(n: nat): (r: set<int>)
    ensures forall k :: k in r <==> 1 <= k <= n
    ensures |r| == n
  {
    if n == 0 then {} else IdsUpTo(n - 1) + {n}
  }

  /** A valid store holds exactly lastID users. */
  lemma ValidSize(s: State)
    requires Valid(s)
    ensures |s.users| == s.lastID
  {
    var ids := IdsUpTo(s.lastID);
    assert s.users.Keys == ids;
  }

  /** The store as the handler factory leaves it: no users, counter at zero. */
  function Initial(): (s: State)
    ensures Valid(s)
    ensures |s.users| == 0
  {
    State(map[], 0)
  }

  /** Exact lookup by id, the comma-ok form of a map index. */
  function Lookup(s: State, id: Int64): (r: Option<User>)
    ensures r.Some? <==> id in s.users
    ensures r.Some? ==> r.value == s.users[id]
    ensures Valid(s) ==> (r.Some? <==> 1 <= id <= s.lastID)
    ensures Valid(s) && r.Some? ==> r.value.id == id
  {
    if id in s.users then Some(s.users[id]) else None
  }

  /** Store a new user: bump the counter, take its new value as the id in
      place of whatever id the client sent, stamp the creation time, and file
      the user under that id. Returns the stored user and the new store. */
  function Create(s: State, fields: User, now: Timestamp): (r: (User, State))
    ensures r.0.firstName == fields.firstName
    ensures r.0.lastName == fields.lastName
    ensures r.0.email == fields.email
    ensures r.0.createdAt == now
    ensures s.lastID < MaxInt ==> r.0.id == s.lastID + 1
    ensures r.1.lastID == r.0.id
    ensures r.0.id in r.1.users && r.1.users[r.0.id] == r.0
    ensures forall k :: k in s.users && k != r.0.id ==> k in r.1.users && r.1.users[k] == s.users[k]
    ensures r.1.users.Keys == s.users.Keys + {r.0.id}
  {
    var id := Inc(s.lastID);
    var user := fields.(id := id, createdAt := now);
    (user, State(s.users[id := user], id))
  }

  /** The client's id and timestamp have no effect on what Create stores. */
  lemma CreateIgnoresClientId(s: State, fields: User, id: Int64, stamp: Timestamp, now: Timestamp)
    ensures Create(s, fields.(id := id, createdAt := stamp), now) == Create(s, fields, now)
  {
  }

  /** On a valid store whose counter has not reached MaxInt, Create files the
      user under an id larger than every id already present, so it never
      overwrites an entry, keeps every old entry, grows the store by one and
      keeps the invariant. */
  lemma CreateKeepsValid(s: State, fields: User, now: Timestamp)
    requires Valid(s) && s.lastID < MaxInt
    ensures var (u, s') := Create(s, fields, now);
      && u.id !in s.users
      && (forall k :: k in s.users ==> k < u.id)
      && |s'.users| == |s.users| + 1
      && Valid(s')
  {
    var (u, s') := Create(s, fields, now);
    assert s'.users.Keys == s.users.Keys + {u.id};
  }

  /** What the counter wrap looks like: on the MaxInt-th create the new user
      is filed under the negative id MinInt, outside 1..lastID. */
  lemma CreateAtMaxIntWraps(s: State, fields: User, now: Timestamp)
    requires s.lastID == MaxInt
    ensures Create(s, fields, now).0.id == MinInt
    ensures !Valid(Create(s, fields, now).1)
  {
  }
}

=== FILE: strconv.dfy ===
/** Go's `int` on a 64-bit platform and `strconv.Atoi` on the text a route
    variable can carry. */
module Strconv {
  import opened Wrappers
  import opened Decimal

  const MaxInt: int := 0x7fff_ffff_ffff_ffff
  const MinInt: int := -0x8000_0000_0000_0000

  /** The values a Go `int` can hold (64-bit two's complement). */
  type Int64 = x: int | MinInt <= x <= MaxInt

  /** `x++` on a Go int: the successor taken modulo 2^64 in two's complement,
      so one more below MaxInt and MinInt after it. */
  function Inc(x: Int64): (r: Int64)
    ensures r == (x - MinInt + 1) % 0x1_0000_0000_0000_0000 + MinInt
    ensures x < MaxInt ==> r == x + 1
    ensures x == MaxInt ==> r == MinInt
  {
    if x == MaxInt then MinInt else x + 1
  }

  /** Why a conversion failed: `strconv.ErrSyntax` or `strconv.ErrRange`. */
  datatype NumErrorKind = ErrSyntax | ErrRange

  /** A `*strconv.NumError`: the function that failed, its input and the cause. */
  datatype NumError = NumError(func: string, num: string, err: NumErrorKind)

  function KindText(k: NumErrorKind): string {
    match k
    case ErrSyntax => "invalid syntax"
    case ErrRange => "value out of range"
  }

  /** `strconv.Quote` for text that needs no escaping, such as a digit run. */
  function Quote(s: string): string {
    "\"" + s + "\""
  }

  /** What `fmt.Fprint` writes for a NumError: the text of its Error method.
      It names the failing function, then the input between double quotes,
      and ends with the cause. */
  function ErrorText(e: NumError): (r: string)
    ensures var head := "strconv." + e.func + ": parsing \"";
      && |head| + |e.num| < |r|
      && r[..|head|] == head
      && r[|head|..|head| + |e.num|] == e.num
      && r[|head| + |e.num|] == '"'
      && |head| + |e.num| + 1 <= |r| - |KindText(e.err)|
      && r[|head| + |e.num| + 1..|r| - |KindText(e.err)|] == ": "
      && r[|r| - |KindText(e.err)|..] == KindText(e.err)
  {
    "strconv." + e.func + ": parsing " + Quote(e.num) + ": " + KindText(e.err)
  }

  /** `strconv.Atoi` on unsigned decimal text: a digit run whose value fits in
      an int parses to that value, a longer one fails with ErrRange, and any
      other text fails with ErrSyntax. */
  function Atoi(s: string): (r: Result<Int64, NumError>)
    ensures r.Success? <==> IsDigitRun(s) && Value(s) <= MaxInt
    ensures r.Success? ==> r.value >= 0 && r.value == Value(s)
    ensures r.Failure? ==> r.error.func == "Atoi" && r.error.num == s
    ensures r.Failure? ==> (r.error.err == ErrRange <==> IsDigitRun(s))
  {
    if !IsDigitRun(s) then Failure(NumError("Atoi", s, ErrSyntax))
    else if Value(s) > MaxInt then Failure(NumError("Atoi", s, ErrRange))
    else Success(Value(s))
  }

  /** `strconv.Atoi(strconv.Itoa(n))` gives n back for every non-negative int. */
  lemma AtoiOfFormat(n: Int64)
    requires n >= 0
    ensures Atoi(FormatInt(n)) == Success(n)
  {
    ValueOfFormat(n);
  }
}

=== FILE: wrappers.dfy ===
/** Small failure-carrying datatypes shared by the other modules. */
module Wrappers {

  /** A value that may be absent, as a Go map lookup's `ok` flag or a nil pointer. */
  datatype Option<+T> = None | Some(value: T)

  /** Either a value or the error a Go call returned beside it. */
  datatype Result<+T, +E> = Success(value: T) | Failure(error: E)
}
